=== FILE: README.md ===
# IBI accuracy metrics in Dafny

A model of the two accuracy metrics that compare a candidate
inter-beat-interval (IBI) series, measured by radar, against a reference
IBI series taken from an ECG. Each series is a list of times (seconds) with
one IBI value per time.

- `calc_rmse` (module `CalcRmse`) works in four steps.
  - It resamples the reference onto a 1 ms grid by linear interpolation and
    extrapolation.
  - It overwrites the two ends of that grid with the first and last
    reference values.
  - It selects the candidate samples whose times lie in caller-given closed
    intervals. The per-interval selections are concatenated, so overlapping
    intervals give duplicates.
  - It matches each selected sample to its nearest grid point (the earliest
    one on a tie). It returns the signed differences and their root mean
    square.
- `calc_tcr` (module `CalcTcr`) is the time coverage rate.
  - It cuts the reference span into `floor(span / dt)` half-open bins.
  - It takes the reference interpolated at each bin centre as that bin's
    reference value. The first and last bins are forced to the reference
    end values.
  - A bin is covered when one of the candidate samples in its window is
    strictly closer than the tolerance to that value.
  - It returns the covered share of the bins, in percent.
- Both metrics use `interp1d(..., kind='linear', fill_value="extrapolate")`.
  The module `Interpolation` models it as a function of the reference
  sequences. The segment is chosen as that routine does: the count of
  sample times below the query, clipped to `[1, n-1]`. Past either end the
  end segment's line is extended.

Times and values are exact `real`s. The 1 ms grid is kept in integer
milliseconds: grid position `i` stands for time `(GridStart + i) / 1000`.

Two behaviours of the code worth knowing; the model follows the code in both.

- **Grid overwrites.** The source comment at src/calc_rmse.py:20 says the
  step fixes up the values before and after the data, as MATLAB does. The
  overwrite indices are absolute, `ceil(t0 * 1000)` and `floor(tlast * 1000)`
  (src/calc_rmse.py:21-25), but the grid starts at `floor(t0 * 1000)`. The
  model applies the indices as written, including Python's normalisation of
  slice bounds (a negative bound counts from the end, and every bound is
  clipped to the length).
  - `ReferenceGridAlignedStart`: when the reference starts within the first
    millisecond, the first-value write clamps the grid point before t0.
    The last-value write covers [floor(tlast * 1000), ceil(tlast * 1000)) ms,
    which lies inside the last millisecond of the span and is empty when
    tlast is a whole millisecond. `ExampleLastWriteInSpan` shows such an
    in-span point being overwritten.
  - `ReferenceGridLateStart`: for a later start the last-value overwrite
    writes nothing, and the first `ceil(t0 * 1000)` grid positions are set
    to the first value even inside the span.
  - `ReferenceGridAllFirst`: a late enough start sets the whole grid to the
    first value.
- **Tolerance test.** The docstring of `calc_tcr` describes a match as a
  difference "at or below" the tolerance. The code compares strictly
  (src/calc_tcr.py:51), and so does `BinCovered`.

Bin windows are half-open, so with a constant reference over [0, 10] s, bin
width 5 s and one sample at 5 s, the sample lies in the second bin [5, 10).
`ExampleTwoBins` gives the flags `[false, true]` and a rate of 50 %.

## Model

| member | source | states |
|---|---|---|
| Interpolation.Segment | src/calc_rmse.py:17-18 | the upper end of the segment used for query time q: the count of reference times below q (searchsorted-left), clipped to [1, n-1] |
| Interpolation.Line | src/calc_rmse.py:17-18 | the straight line through (t0, v0) and (t1, v1) evaluated at q: (v1 - v0)/(t1 - t0)*(q - t0) + v0 |
| Interpolation.Interp | src/calc_rmse.py:17-18 | the interpolant (the same call at src/calc_tcr.py:37-38): the line through the segment whose upper end is Segment, evaluated at q, extrapolating past either end |
| Interpolation.InterpAtSample | src/calc_rmse.py:17-18 | at every reference time the interpolant returns that sample's value |
| Interpolation.InterpBetweenSamples | src/calc_rmse.py:17-18 | between two consecutive reference samples the interpolant is the straight line through them, whichever adjacent segment is chosen at a shared end point |
| Interpolation.InterpBounded | src/calc_rmse.py:17-18 | between two consecutive samples the interpolant lies between their two values |
| Interpolation.InterpWithinRange | src/calc_tcr.py:37-38 | inside the reference span the interpolant stays within any bounds of the reference values |
| Interpolation.InterpBeforeFirst | src/calc_rmse.py:17 | before the first sample the value extrapolates the first segment's line (it is not held at the first value) |
| Interpolation.InterpAfterLast | src/calc_tcr.py:37 | after the last sample the value extrapolates the last segment's line |
| Interpolation.InterpOfLine | src/calc_tcr.py:37-38 | a reference whose samples lie on a line a*t + b is reproduced exactly at every query time, inside and outside the span |
| Interpolation.LineOfLine | src/calc_rmse.py:17 | the line through two points of t -> a*t + b is that same line at every query time |
| Interpolation.UpperFrom | src/calc_rmse.py:17-18 | the segment search returns the first index from i on whose time is not below the query, or the last index |
| CalcRmse.GridStart | src/calc_rmse.py:13 | the grid's first point in ms: floor(t0*1000) |
| CalcRmse.GridEnd | src/calc_rmse.py:14 | the grid's excluded end in ms: ceil(tlast*1000) |
| CalcRmse.FirstIndex | src/calc_rmse.py:21 | the absolute bound of the first-value slice: ceil(t0*1000) |
| CalcRmse.LastIndex | src/calc_rmse.py:24 | the absolute bound of the last-value slice: floor(tlast*1000) |
| CalcRmse.InterpolatedGrid | src/calc_rmse.py:17-18 | the interpolant at every grid time (GridStart + i)/1000 |
| CalcRmse.ReferenceGrid | src/calc_rmse.py:17-25 | the grid after both slice writes: positions from the normalised last bound take the last value, other positions below the normalised first bound take the first value, the rest keep the interpolant; one value per grid point |
| CalcRmse.GridLength | src/calc_rmse.py:13-15 | the 1 ms grid has at least one point for any strictly increasing reference |
| CalcRmse.GridBounds | src/calc_rmse.py:13-15 | the grid runs from floor(t0*1000) ms inclusive to ceil(tlast*1000) ms exclusive: its first point is at most 1 ms before t0, its last point lies before tlast, and one more step reaches tlast |
| CalcRmse.SliceBound | src/calc_rmse.py:22 | a normalised slice bound never exceeds the sequence length |
| CalcRmse.ResampleOntoGrid | src/calc_rmse.py:17-25 | the array built by interpolating at every grid time and then overwriting both end slices in place equals ReferenceGrid |
| CalcRmse.ReferenceGridAt | src/calc_rmse.py:21-25 | for t0 >= 0: positions at or beyond floor(tlast*1000) hold the last value; other positions below ceil(t0*1000) hold the first value; the rest keep their interpolated value |
| CalcRmse.ReferenceGridAlignedStart | src/calc_rmse.py:13-25 | for 0 <= t0 < 1 ms the grid starts at 0; the grid point before t0 takes the first value; the positions from floor(tlast*1000) on take the last value, lie within the last millisecond before tlast, and are none when tlast is a whole millisecond; the rest are interpolated |
| CalcRmse.ExampleLastWriteInSpan | src/calc_rmse.py:24-25 | for a reference on [0, 10.0005] s the grid point at 10 s lies inside the span, yet holds the last value 1.0 instead of its interpolated value below 1.0 |
| CalcRmse.ReferenceGridLateStart | src/calc_rmse.py:13-25 | for t0 >= 1 ms the last-value overwrite writes nothing and the positions below ceil(t0*1000) take the first value; every position but possibly the first lies strictly inside the span |
| CalcRmse.ExampleNegativeStart | src/calc_rmse.py:21-25 | for a reference on [-5, 10] ms the first slice bound -5 counts from the end of the 15-point grid, so positions 0-9 take the first value (position 9, at 4 ms inside the span, where the interpolant is larger); the absolute last bound 10 lands 5 positions early, so positions 10-14 (5-9 ms) take the last value (position 10, at 5 ms, where the interpolant is smaller); no interpolated value is left |
| CalcRmse.ExampleNegativeStartLastWrite | src/calc_rmse.py:24-25 | for a reference on [-0.5, 10.5] ms the grid starts at -1 ms, so position 10, at 9 ms and more than 1 ms before the end, takes the last value although the interpolant there is smaller |
| CalcRmse.ReferenceGridAllFirst | src/calc_rmse.py:21-22 | when ceil(t0*1000) reaches the grid length, every grid value is the first reference value |
| CalcRmse.ReferenceGridWithinRange | src/calc_rmse.py:17-25 | for t0 >= 0 every grid value lies within any bounds of the reference values |
| CalcRmse.ReferenceGridOfConstant | src/calc_rmse.py:17-25 | a constant reference gives that constant at every grid point |
| CalcRmse.DefaultInterval | src/calc_rmse.py:27-28 | the single default interval [GridStart/1000, GridEnd/1000] |
| CalcRmse.EffectiveIntervals | src/calc_rmse.py:27-30 | the given interval list, or the default interval alone when none is given |
| CalcRmse.IndicesFrom | src/calc_rmse.py:35 | the indices from `from` on whose times lie in the closed interval, in range, strictly ascending |
| CalcRmse.IndicesIn | src/calc_rmse.py:35 | one interval's selection: in-range, strictly ascending indices whose times lie in [start, end] |
| CalcRmse.IndicesInCount | src/calc_rmse.py:35 | one interval selects every sample whose time it contains exactly once, and nothing else |
| CalcRmse.Selection | src/calc_rmse.py:33-36 | every selected index is a valid index of the candidate series |
| CalcRmse.SelectIndices | src/calc_rmse.py:33-36 | the accumulating loop yields the concatenation, in interval order, of the per-interval selections |
| CalcRmse.SelectionCount | src/calc_rmse.py:33-36 | each candidate sample occurs in the selection once per interval that contains its time (duplicates are kept), and nothing out of range occurs |
| CalcRmse.SelectionAppend | src/calc_rmse.py:33-36 | selecting over two interval lists in turn gives the concatenation of the two selections |
| CalcRmse.DefaultSelection | src/calc_rmse.py:27-36 | without intervals, exactly the samples with time in [gridStart, gridEnd] are selected, each once and ascending |
| CalcRmse.NearestIn | src/calc_rmse.py:40 | the matched grid index is in range, no farther from the sample time than any grid point, and strictly closer than every earlier one (first minimiser) |
| CalcRmse.FirstMinimiserUnique | src/calc_rmse.py:40 | the first minimiser of the grid distance is unique |
| CalcRmse.RoundedBeats | src/calc_rmse.py:40 | the rounded grid index is in range, no farther from the sample time than any grid point, and strictly closer than every earlier one |
| CalcRmse.NearestIsRounded | src/calc_rmse.py:40 | the argmin scan equals rounding the time in ms to the nearest grid position, halves going down, clamped to the grid |
| CalcRmse.RmseDiffs | src/calc_rmse.py:38-45 | the difference sequence has the length of the selection |
| CalcRmse.RmseDiffsAt | src/calc_rmse.py:40-45 | entry k is the selected sample's value minus the grid value at its (closed-form, in-range) nearest index |
| CalcRmse.RmseDiffsOfConstant | src/calc_rmse.py:42-45 | against a constant reference c every difference is the sample's value minus c |
| CalcRmse.Rmse | src/calc_rmse.py:17-46 | returns the differences of RmseDiffs and their mean square, which is >= 0 and 0 exactly when every difference is 0 |
| CalcRmse.MeanSquare | src/calc_rmse.py:46 | the sum of squared differences divided by their number (the value under the square root) |
| CalcRmse.IsRootMeanSquare | src/calc_rmse.py:46 | r is non-negative and r*r is the mean square (what `np.sqrt` of the mean returns) |
| CalcRmse.SumSquares | src/calc_rmse.py:46 | a sum of squares is non-negative |
| CalcRmse.SumSquaresZero | src/calc_rmse.py:46 | the sum of squares is zero exactly when every entry is zero |
| CalcRmse.MeanSquareZero | src/calc_rmse.py:46 | the mean square is non-negative and zero exactly when every difference is zero |
| CalcRmse.RootMeanSquare | src/calc_rmse.py:46 | the non-negative root of the mean square is unique, and zero exactly when every difference is zero |
| CalcRmse.ExampleConstantReference | src/calc_rmse.py:4-48 | constant reference 1.0 over [0, 10] s, one sample (5 s, 1.0), interval [0, 10]: one difference 0.0, mean square 0.0 |
| CalcTcr.BinCount | src/calc_tcr.py:28 | the number of bins: floor((tlast - t0)/dt) |
| CalcTcr.BinCentre | src/calc_tcr.py:29-34 | bin k's centre: t0 + dt/2 + k*dt |
| CalcTcr.BinReference | src/calc_tcr.py:37-40 | bin k's reference value: the last value for k = K-1, else the first value for k = 0, else the interpolant at the centre |
| CalcTcr.InWindow | src/calc_tcr.py:46-49 | t lies in [centre - dt/2, centre + dt/2) |
| CalcTcr.ValuesInRange | src/calc_tcr.py:49 | the values of the samples from index `from` on whose times lie in [lo, hi), in series order; at most as many as the samples considered |
| CalcTcr.AnyWithin | src/calc_tcr.py:51-52 | some value lies strictly within err of the reference value |
| CalcTcr.BinCovered | src/calc_tcr.py:49-52 | the bin's window holds at least one sample and one of their values is strictly within err of the bin reference value |
| CalcTcr.CoverageFlags | src/calc_tcr.py:43 | there is one coverage flag per bin |
| CalcTcr.CountCovered | src/calc_tcr.py:54 | the covered count never exceeds the number of bins |
| CalcTcr.ValuesInRangeSound | src/calc_tcr.py:49 | every value selected for a window [lo, hi) is the value of some candidate sample whose time lies in [lo, hi) |
| CalcTcr.BinCentresInSpan | src/calc_tcr.py:28-34 | every bin centre lies strictly inside the reference span, and K*dt <= span < (K+1)*dt for K = floor(span/dt) |
| CalcTcr.CentreOffset | src/calc_tcr.py:29-34 | when K whole steps fit in the span, the centre offset dt/2 + k*dt of any bin k < K lies strictly inside it |
| CalcTcr.BinReferenceValues | src/calc_tcr.py:37-40 | the array built by interpolating at each bin centre and then overwriting entries 0 and K-1 in place holds BinReference (last value wins for a single bin) |
| CalcTcr.BinReferenceWithinRange | src/calc_tcr.py:37-40 | every bin reference value lies within any bounds of the reference values |
| CalcTcr.WindowSpan | src/calc_tcr.py:46-49 | bin k's window is [t0 + k*dt, t0 + (k+1)*dt) |
| CalcTcr.WindowIndex | src/calc_tcr.py:46-49 | a time lies in bin k's window exactly when k = floor((t - t0)/dt) |
| CalcTcr.WindowOf | src/calc_tcr.py:45-49 | windows are disjoint and tile [t0, t0 + K*dt); times before t0 or in the truncated remainder lie in no window |
| CalcTcr.ValuesInRangeAny | src/calc_tcr.py:49-52 | the window's value list is non-empty iff some sample lies in [lo, hi), and holds a value within tolerance iff some such sample is strictly within it |
| CalcTcr.BinCoveredIff | src/calc_tcr.py:49-52 | a bin is covered iff some candidate sample in its window is strictly closer than the tolerance to its reference value; an empty window is uncovered |
| CalcTcr.BinCoveredLocal | src/calc_tcr.py:45-52 | adding samples never uncovers a bin, and samples outside a bin's window do not change it |
| CalcTcr.Tcr | src/calc_tcr.py:43-54 | the per-bin loop yields covered*100/K; the result lies in [0, 100], is 100 iff every bin is covered and 0 iff none is |
| CalcTcr.CountCoveredExtremes | src/calc_tcr.py:54 | the covered count equals the bin count iff every flag is set, and is 0 iff none is |
| CalcTcr.PercentageBounds | src/calc_tcr.py:54 | covered*100/K lies in [0, 100], is 100 iff covered = K and 0 iff covered = 0 |
| CalcTcr.ExampleTwoBins | src/calc_tcr.py:28-55 | constant reference over [0, 10] s, dt 5 s, one sample (5 s, 1.0), tolerance 0.5: flags [false, true], rate 50 |
| CalcTcr.ExampleTruncation | src/calc_tcr.py:28-49 | a 10 s span with 3 s bins gives three bins, and a sample at 9.5 s lies in none |

## Left out

- IEEE-754 floating point is not modelled: times, values and `t / dt` are exact reals. Because of this, the drift of `np.arange` (which can give one point more or fewer than K, or a grid of a different length) is not captured.
- The internals of scipy's `interp1d` are replaced by the function `Interpolation.Interp`. Its sorting of an unsorted reference is not modelled: the model requires strictly increasing reference times (`ValidReference`), and at least two samples, which `interp1d` also demands.
- CalcRmse.Rmse: returns the mean square, not its square root. Real square roots are not available to the verifier. `IsRootMeanSquare` and `RootMeanSquare` state what the root satisfies: it is non-negative, its square is the mean square, it is unique, and it is zero exactly when every difference is zero.
- CalcTcr.Tcr: returns the unrounded percentage. Python's `round(..., 2)` on a float (with its binary representation and ties to even) is not modelled.
- The error outcomes are preconditions, since the source raises no errors of its own:
  - an empty selection in `calc_rmse` (the empty index array built at src/calc_rmse.py:40 is a float array, and indexing with it raises an IndexError at src/calc_rmse.py:42): `Rmse` requires a non-empty selection;
  - K = 0 in `calc_tcr` (an IndexError at src/calc_tcr.py:39; the ratio at src/calc_tcr.py:54 would also divide by zero): `Tcr` requires at least one bin.
  - a bin width that is not positive in `calc_tcr`: `BinCount`, `BinReference` and `Tcr` require `dt > 0`. With a zero width, `int` of an infinite quotient raises at src/calc_tcr.py:28; with a negative width, `xq` is empty and `vq[0]` raises at src/calc_tcr.py:39.
- The nearest-point search is the exhaustive first-argmin scan; its memory cost, and vectorisation in general, are not modelled. `RoundedIndex` is a grid-relative closed form proved equal to the scan. The commented-out line src/calc_rmse.py:41 is a different formula and is not modelled: it gives an absolute millisecond index rather than one relative to the grid start, rounds halves to even, and does not clamp to the grid.
- CalcRmse.ReferenceGridAt, CalcRmse.ReferenceGridWithinRange: stated for references starting at t0 >= 0 only. For -1 ms < t0 < 0 the first slice bound is 0, so grid position 0 keeps an extrapolated value, which can lie outside the range of the reference values. For t0 <= -1 ms the first slice bound is negative and counts from the end of the grid, so in-span positions below n + ceil(t0*1000) also take the first value (`ExampleNegativeStart`). For every t0 < 0 the last slice bound floor(tlast*1000) is absolute while the grid starts at GridStart < 0, so the last-value write lands -GridStart positions early and replaces in-span values more than 1 ms before tlast (`ExampleNegativeStart`, `ExampleNegativeStartLastWrite`). `ReferenceGrid` models both cases, but no general lemma states them.
- Conversion of the interval list with `np.asarray` is not modelled. Intervals are given as `(start, end)` pairs, and `None` selects the default interval.
- The outdated docstring of `calc_rmse` (src/calc_rmse.py:8-9) describes a different argument and is not modelled.

=== FILE: calc_rmse.dfy ===
/** RMSE of a candidate inter-beat-interval series against a reference
    series resampled onto a 1 ms grid.

    Times are exact reals in seconds. The grid is kept as integer
    milliseconds: grid position i stands for the time
    (GridStart + i) / 1000. The square root of the final step is not
    modelled: the result carries the mean square, and IsRootMeanSquare
    states what the returned root satisfies. */
module CalcRmse {
  import opened Interpolation

  datatype Option<T> = None | Some(value: T)

  /** One row of the interval list: the closed time range [start, end]. */
  datatype Interval = Interval(start: real, end: real)

  /** The grid step is 1/1000 s, so a time in seconds times this constant
      is a time in grid steps. */
  const StepsPerSecond: real := 1000.0

  function Ceil(x: real): (c: int)
    ensures x <= c as real < x + 1.0
  {
    -((-x).Floor)
  }

  function Clamp(k: int, lo: int, hi: int): (r: int)
    requires lo <= hi
    ensures lo <= r <= hi
    ensures lo <= k <= hi ==> r == k
  {
    if k < lo then lo else if k > hi then hi else k
  }

  // ---------------------------------------------------------------------
  // The 1 ms grid
  // ---------------------------------------------------------------------

  /** The grid's first point in milliseconds: the reference start rounded down. */
  function GridStart(ts: seq<real>): (m: int)
    requires |ts| > 0
  {
    (ts[0] * StepsPerSecond).Floor
  }

  /** The grid's excluded end in milliseconds: the reference end rounded up. */
  function GridEnd(ts: seq<real>): (m: int)
    requires |ts| > 0
  {
    Ceil(Last(ts) * StepsPerSecond)
  }

  function GridLength(ts: seq<real>): (n: nat)
    requires |ts| >= 2 && StrictlyIncreasing(ts)
    ensures n >= 1
  {
    assert ts[0] < Last(ts);
    GridEnd(ts) - GridStart(ts)
  }

  function GridTime(m: int): (t: real)
  {
    m as real / StepsPerSecond
  }

  /** The absolute index written before the grid's first-value overwrite:
      the reference start in milliseconds, rounded up. */
  function FirstIndex(ts: seq<real>): (m: int)
    requires |ts| > 0
  {
    Ceil(ts[0] * StepsPerSecond)
  }

  /** The absolute index where the last-value overwrite begins: the
      reference end in milliseconds, rounded down. */
  function LastIndex(ts: seq<real>): (m: int)
    requires |ts| > 0
  {
    (Last(ts) * StepsPerSecond).Floor
  }

  /** A slice bound k of a sequence of length n, normalised as Python does
      for `a[:k]` and `a[k:]`: a negative bound counts from the end, and the
      result is clipped to [0, n]. */
  function SliceBound(k: int, n: nat): (b: nat)
    ensures b <= n
  {
    if k < 0 then (if k + n < 0 then 0 else k + n)
    else if k > n then n
    else k
  }

  /** The reference interpolated at every grid point. */
  function InterpolatedGrid(ts: seq<real>, vs: seq<real>): (g: seq<real>)
    requires ValidReference(ts, vs)
  {
    var g0 := GridStart(ts);
    seq(GridLength(ts), i => Interp(ts, vs, GridTime(g0 + i)))
  }

  /** The grid values after both slice overwrites: positions below the
      normalised first index take the first reference value, and positions
      from the normalised last index on take the last one, the second write
      winning where the two ranges overlap. */
  function ReferenceGrid(ts: seq<real>, vs: seq<real>): (g: seq<real>)
    requires ValidReference(ts, vs)
    ensures |g| == GridLength(ts)
  {
    var n := GridLength(ts);
    var a := SliceBound(FirstIndex(ts), n);
    var b := SliceBound(LastIndex(ts), n);
    var interpolated := InterpolatedGrid(ts, vs);
    seq(n, i requires 0 <= i < n =>
      if b <= i then Last(vs) else if i < a then First(vs) else interpolated[i])
  }

  /** Resampling onto the grid: interpolate at every grid time, then
      overwrite the two end slices in place. */
  method ResampleOntoGrid(ts: seq<real>, vs: seq<real>) returns (grid: array<real>)
    requires ValidReference(ts, vs)
    ensures fresh(grid)
    ensures grid[..] == ReferenceGrid(ts, vs)
  {
    var n := GridLength(ts);
    var g0 := GridStart(ts);
    grid := new real[n](i => Interp(ts, vs, GridTime(g0 + i)));
    var a := SliceBound(FirstIndex(ts), n);
    forall i | 0 <= i < a {
      grid[i] := First(vs);
    }
    var b := SliceBound(LastIndex(ts), n);
    forall i | b <= i < n {
      grid[i] := Last(vs);
    }
  }

  /** The grid runs from the reference start rounded down to whole
      milliseconds up to, but excluding, the reference end rounded up: its
      first point is at most 1 ms before the start, its last point lies
      before the end, and one more step would reach the end. */
  lemma GridBounds(ts: seq<real>)
    requires |ts| >= 2 && StrictlyIncreasing(ts)
    ensures GridLength(ts) == GridEnd(ts) - GridStart(ts)
    ensures GridTime(GridStart(ts)) <= ts[0] < GridTime(GridStart(ts) + 1)
    ensures GridTime(GridStart(ts) + GridLength(ts) - 1) < Last(ts)
    ensures Last(ts) <= GridTime(GridStart(ts) + GridLength(ts))
  {
    var g0, c := GridStart(ts), GridEnd(ts);
    assert g0 as real <= ts[0] * StepsPerSecond < g0 as real + 1.0;
    assert Last(ts) * StepsPerSecond <= c as real < Last(ts) * StepsPerSecond + 1.0;
  }

  /** Per position, for a reference that starts at a non-negative time (so
      that no slice bound is negative): positions at or beyond the last
      index hold the last value, other positions below the first index hold
      the first value, and the rest keep their interpolated value. */
  lemma ReferenceGridAt(ts: seq<real>, vs: seq<real>, i: nat)
    requires ValidReference(ts, vs)
    requires 0.0 <= ts[0]
    requires i < GridLength(ts)
    ensures LastIndex(ts) <= i ==> ReferenceGrid(ts, vs)[i] == Last(vs)
    ensures i < LastIndex(ts) && i < FirstIndex(ts) ==> ReferenceGrid(ts, vs)[i] == First(vs)
    ensures FirstIndex(ts) <= i < LastIndex(ts) ==>
              ReferenceGrid(ts, vs)[i] == Interp(ts, vs, GridTime(GridStart(ts) + i))
  {
    assert 0.0 <= Last(ts);
    assert 0 <= LastIndex(ts);
  }

  /** When the reference starts within the first millisecond, the absolute
      overwrite indices line up with the grid. The first-value write then
      clamps the grid point before the reference start, if there is one.
      The last-value write covers the positions from floor(tlast * 1000) ms
      up to the grid end, ceil(tlast * 1000) ms: they lie inside the last
      millisecond of the span, so in-span interpolated values are replaced,
      and there are none when tlast is a whole millisecond. Every other
      position keeps its interpolated value. */
  lemma ReferenceGridAlignedStart(ts: seq<real>, vs: seq<real>, i: nat)
    requires ValidReference(ts, vs)
    requires 0.0 <= ts[0] < 1.0 / StepsPerSecond
    requires i < GridLength(ts)
    ensures GridStart(ts) == 0
    ensures GridTime(i) < ts[0] && i < LastIndex(ts) ==> ReferenceGrid(ts, vs)[i] == First(vs)
    ensures ts[0] <= GridTime(i) && i < LastIndex(ts) ==>
              ReferenceGrid(ts, vs)[i] == Interp(ts, vs, GridTime(i))
    ensures LastIndex(ts) <= i ==> ReferenceGrid(ts, vs)[i] == Last(vs)
    ensures LastIndex(ts) <= i ==> Last(ts) - 1.0 / StepsPerSecond < GridTime(i) < Last(ts)
    ensures LastIndex(ts) as real == Last(ts) * StepsPerSecond ==> i < LastIndex(ts)
  {
    ReferenceGridAt(ts, vs, i);
    GridBounds(ts);
    assert 0.0 <= ts[0] * StepsPerSecond < 1.0;
    assert GridStart(ts) == 0;
    assert ts[0] < Last(ts);
    assert 0 <= FirstIndex(ts) <= 1;
    assert FirstIndex(ts) == 0 <==> ts[0] == 0.0;
    assert GridTime(i) < ts[0] ==> i == 0 && FirstIndex(ts) == 1;
    assert ts[0] <= GridTime(i) ==> FirstIndex(ts) <= i;
  }

  /** A reference from 0 s to 10.0005 s: the grid point at 10 s lies inside
      the span, yet the last-value write replaces its interpolated value. */
  lemma ExampleLastWriteInSpan(ts: seq<real>, vs: seq<real>)
    requires ts == [0.0, 10.0005] && vs == [0.0, 1.0]
    ensures GridLength(ts) == 10001 && LastIndex(ts) == 10000
    ensures GridTime(10000) < Last(ts)
    ensures ReferenceGrid(ts, vs)[10000] == 1.0
    ensures Interp(ts, vs, GridTime(10000)) < 1.0
  {
    assert GridStart(ts) == 0;
    assert LastIndex(ts) == 10000;
    assert GridEnd(ts) == 10001;
    ReferenceGridAlignedStart(ts, vs, 10000);
    InterpBetweenSamples(ts, vs, 0, GridTime(10000));
  }

  /** When the reference starts at 1 ms or later the absolute indices do
      not line up with the grid: the last-value overwrite writes nothing,
      and the first FirstIndex grid positions are set to the first value.
      All of them but possibly position 0, which lies before the reference
      start unless that start is a whole millisecond, are inside the span. */
  lemma ReferenceGridLateStart(ts: seq<real>, vs: seq<real>, i: nat)
    requires ValidReference(ts, vs)
    requires 1.0 / StepsPerSecond <= ts[0]
    requires i < GridLength(ts)
    ensures 1 <= GridStart(ts)
    ensures i < FirstIndex(ts) ==> ReferenceGrid(ts, vs)[i] == First(vs)
    ensures FirstIndex(ts) <= i ==>
              ReferenceGrid(ts, vs)[i] == Interp(ts, vs, GridTime(GridStart(ts) + i))
    ensures 1 <= i ==> ts[0] < GridTime(GridStart(ts) + i) < Last(ts)
  {
    ReferenceGridAt(ts, vs, i);
    GridBounds(ts);
    assert 1.0 <= ts[0] * StepsPerSecond;
    assert 1 <= GridStart(ts);
    assert GridLength(ts) <= LastIndex(ts);
  }

  /** A reference from -5 ms to 10 ms. The first slice bound, -5, counts
      from the end of the 15-point grid, so positions 0 to 9 take the first
      value, including position 9 at 4 ms, inside the span, where the
      interpolant is larger. The last slice bound, the absolute 10, lands
      5 positions early: positions 10 to 14 (5 ms to 9 ms) take the last
      value, including position 10 at 5 ms, where the interpolant is
      smaller. No interpolated value is left. */
  lemma ExampleNegativeStart(ts: seq<real>, vs: seq<real>)
    requires ts == [-0.005, 0.01] && vs == [0.0, 1.0]
    ensures GridStart(ts) == -5 && GridLength(ts) == 15
    ensures FirstIndex(ts) == -5 && LastIndex(ts) == 10
    ensures ts[0] < GridTime(GridStart(ts) + 9) < Last(ts)
    ensures forall i :: 0 <= i < 10 ==> ReferenceGrid(ts, vs)[i] == First(vs)
    ensures Interp(ts, vs, GridTime(GridStart(ts) + 9)) > First(vs)
    ensures ts[0] < GridTime(GridStart(ts) + 10) < Last(ts)
    ensures forall i :: 10 <= i < 15 ==> ReferenceGrid(ts, vs)[i] == Last(vs)
    ensures Interp(ts, vs, GridTime(GridStart(ts) + 10)) < Last(vs)
  {
    assert GridStart(ts) == -5;
    assert GridEnd(ts) == 10;
    assert FirstIndex(ts) == -5 && LastIndex(ts) == 10;
    assert SliceBound(-5, 15) == 10 && SliceBound(10, 15) == 10;
    InterpBetweenSamples(ts, vs, 0, GridTime(4));
    InterpBetweenSamples(ts, vs, 0, GridTime(5));
  }

  /** A reference from -0.5 ms to 10.5 ms. The last slice bound, the
      absolute 10, lands one position early on a grid starting at -1 ms:
      position 10, at 9 ms and so 1.5 ms before the reference end, takes
      the last value although the interpolant there is smaller. */
  lemma ExampleNegativeStartLastWrite(ts: seq<real>, vs: seq<real>)
    requires ts == [-0.0005, 0.0105] && vs == [0.0, 1.0]
    ensures GridStart(ts) == -1 && GridLength(ts) == 12 && LastIndex(ts) == 10
    ensures GridTime(GridStart(ts) + 10) == 0.009 && 0.009 < Last(ts) - 1.0 / StepsPerSecond
    ensures ReferenceGrid(ts, vs)[10] == Last(vs)
    ensures Interp(ts, vs, GridTime(GridStart(ts) + 10)) < Last(vs)
  {
    assert GridStart(ts) == -1;
    assert GridEnd(ts) == 11;
    assert FirstIndex(ts) == 0 && LastIndex(ts) == 10;
    assert SliceBound(0, 12) == 0 && SliceBound(10, 12) == 10;
    InterpBetweenSamples(ts, vs, 0, GridTime(9));
  }

  /** A late enough start overwrites the whole grid with the first
      reference value. */
  lemma ReferenceGridAllFirst(ts: seq<real>, vs: seq<real>)
    requires ValidReference(ts, vs)
    requires 1.0 / StepsPerSecond <= ts[0]
    requires GridLength(ts) <= FirstIndex(ts)
    ensures forall i :: 0 <= i < GridLength(ts) ==> ReferenceGrid(ts, vs)[i] == First(vs)
  {
    forall i | 0 <= i < GridLength(ts)
      ensures ReferenceGrid(ts, vs)[i] == First(vs)
    {
      ReferenceGridLateStart(ts, vs, i);
    }
  }

  /** For a reference that starts at a non-negative time, every grid value
      lies within the range of the reference values: the grid ends before
      the reference end, and no grid point before the reference start keeps
      an extrapolated value. */
  lemma ReferenceGridWithinRange(ts: seq<real>, vs: seq<real>, lo: real, hi: real)
    requires ValidReference(ts, vs)
    requires 0.0 <= ts[0]
    requires forall j :: 0 <= j < |vs| ==> lo <= vs[j] <= hi
    ensures forall i :: 0 <= i < GridLength(ts) ==> lo <= ReferenceGrid(ts, vs)[i] <= hi
  {
    GridBounds(ts);
    var g0, n := GridStart(ts), GridLength(ts);
    assert 0 <= g0;
    forall i | 0 <= i < n
      ensures lo <= ReferenceGrid(ts, vs)[i] <= hi
    {
      ReferenceGridAt(ts, vs, i);
      assert lo <= First(vs) <= hi && lo <= Last(vs) <= hi;
      if FirstIndex(ts) <= i < LastIndex(ts) {
        var q := GridTime(g0 + i);
        assert ts[0] * StepsPerSecond <= (g0 + i) as real;
        assert GridTime(g0 + i) <= GridTime(g0 + n - 1);
        InterpWithinRange(ts, vs, q, lo, hi);
      }
    }
  }

  /** A constant reference yields the same constant at every grid point. */
  lemma ReferenceGridOfConstant(ts: seq<real>, vs: seq<real>, c: real)
    requires ValidReference(ts, vs)
    requires forall j :: 0 <= j < |vs| ==> vs[j] == c
    ensures forall i :: 0 <= i < GridLength(ts) ==> ReferenceGrid(ts, vs)[i] == c
  {
    forall i | 0 <= i < GridLength(ts)
      ensures ReferenceGrid(ts, vs)[i] == c
    {
      var q := GridTime(GridStart(ts) + i);
      InterpOfLine(ts, vs, 0.0, c, q);
      assert InterpolatedGrid(ts, vs)[i] == Interp(ts, vs, q);
      assert First(vs) == c && Last(vs) == c;
    }
  }

  // ---------------------------------------------------------------------
  // Selecting candidate samples by interval
  // ---------------------------------------------------------------------

  predicate InInterval(t: real, iv: Interval)
  {
    iv.start <= t <= iv.end
  }

  /** The ascending indices j >= from whose times lie in the interval. */
  function IndicesFrom(ts: seq<real>, iv: Interval, from: nat): (r: seq<nat>)
    requires from <= |ts|
    ensures forall k :: 0 <= k < |r| ==> from <= r[k] < |ts|
    ensures forall k, l :: 0 <= k < l < |r| ==> r[k] < r[l]
    ensures forall k :: 0 <= k < |r| ==> InInterval(ts[r[k]], iv)
    decreases |ts| - from
  {
    if from == |ts| then []
    else if InInterval(ts[from], iv) then [from] + IndicesFrom(ts, iv, from + 1)
    else IndicesFrom(ts, iv, from + 1)
  }

  /** The indices of all samples whose times lie in the closed interval, in
      ascending order. */
  function IndicesIn(ts: seq<real>, iv: Interval): (r: seq<nat>)
    ensures forall k :: 0 <= k < |r| ==> r[k] < |ts|
    ensures forall k, l :: 0 <= k < l < |r| ==> r[k] < r[l]
    ensures forall k :: 0 <= k < |r| ==> InInterval(ts[r[k]], iv)
  {
    IndicesFrom(ts, iv, 0)
  }

  /** The selections of all intervals, concatenated in the order the
      intervals are given. */
  function Selection(ts: seq<real>, ivs: seq<Interval>): (r: seq<nat>)
    ensures forall k :: 0 <= k < |r| ==> r[k] < |ts|
  {
    if ivs == [] then []
    else Selection(ts, ivs[..|ivs| - 1]) + IndicesIn(ts, ivs[|ivs| - 1])
  }

  /** The single default interval spanning the whole grid. */
  function DefaultInterval(refTs: seq<real>): (iv: Interval)
    requires |refTs| > 0
  {
    Interval(GridTime(GridStart(refTs)), GridTime(GridEnd(refTs)))
  }

  function EffectiveIntervals(refTs: seq<real>, intervals: Option<seq<Interval>>): (ivs: seq<Interval>)
    requires |refTs| > 0
  {
    match intervals
    case None => [DefaultInterval(refTs)]
    case Some(ivs) => ivs
  }

  /** Accumulates the selected indices interval by interval. */
  method SelectIndices(ts: seq<real>, ivs: seq<Interval>) returns (idx: seq<nat>)
    ensures idx == Selection(ts, ivs)
    ensures forall k :: 0 <= k < |idx| ==> idx[k] < |ts|
  {
    idx := [];
    for i := 0 to |ivs|
      invariant idx == Selection(ts, ivs[..i])
    {
      assert ivs[..i + 1][..i] == ivs[..i];
      idx := idx + IndicesIn(ts, ivs[i]);
    }
    assert ivs[..|ivs|] == ivs;
  }

  /** The number of intervals that contain time t. */
  function Covering(t: real, ivs: seq<Interval>): (c: nat)
  {
    if ivs == [] then 0
    else Covering(t, ivs[..|ivs| - 1]) + (if InInterval(t, ivs[|ivs| - 1]) then 1 else 0)
  }

  lemma {:induction false} IndicesFromCount(ts: seq<real>, iv: Interval, from: nat, j: nat)
    requires from <= |ts|
    ensures multiset(IndicesFrom(ts, iv, from))[j] ==
              if from <= j < |ts| && InInterval(ts[j], iv) then 1 else 0
    decreases |ts| - from
  {
    if from < |ts| {
      var rest := IndicesFrom(ts, iv, from + 1);
      IndicesFromCount(ts, iv, from + 1, j);
      var restMs: multiset<nat> := multiset(rest);
      var restCount := restMs[j];
      assert restCount == if from + 1 <= j < |ts| && InInterval(ts[j], iv) then 1 else 0;
      if InInterval(ts[from], iv) {
        assert IndicesFrom(ts, iv, from) == [from] + rest;
        assert multiset([from] + rest) == multiset{from} + multiset(rest);
        assert multiset{from}[j] == if j == from then 1 else 0;
      } else {
        assert IndicesFrom(ts, iv, from) == rest;
      }
    }
  }

  /** One interval selects every sample whose time it contains, exactly
      once, and nothing else. */
  lemma IndicesInCount(ts: seq<real>, iv: Interval, j: nat)
    ensures multiset(IndicesIn(ts, iv))[j] == if j < |ts| && InInterval(ts[j], iv) then 1 else 0
    ensures j in IndicesIn(ts, iv) <==> j < |ts| && InInterval(ts[j], iv)
  {
    IndicesFromCount(ts, iv, 0, j);
  }

  /** Overlapping intervals are not deduplicated: a candidate sample appears
      in the selection once for every interval that contains its time, and
      indices outside the series never appear. */
  lemma {:induction false} SelectionCount(ts: seq<real>, ivs: seq<Interval>, j: nat)
    ensures multiset(Selection(ts, ivs))[j] == if j < |ts| then Covering(ts[j], ivs) else 0
  {
    if ivs != [] {
      SelectionCount(ts, ivs[..|ivs| - 1], j);
      IndicesInCount(ts, ivs[|ivs| - 1], j);
    }
  }

  /** Selecting over two interval lists one after the other gives the
      concatenation of the two selections. */
  lemma {:induction false} SelectionAppend(ts: seq<real>, ivs1: seq<Interval>, ivs2: seq<Interval>)
    ensures Selection(ts, ivs1 + ivs2) == Selection(ts, ivs1) + Selection(ts, ivs2)
  {
    if ivs2 == [] {
      assert ivs1 + ivs2 == ivs1;
    } else {
      var init := ivs2[..|ivs2| - 1];
      assert (ivs1 + ivs2)[..|ivs1 + ivs2| - 1] == ivs1 + init;
      SelectionAppend(ts, ivs1, init);
    }
  }

  /** Without an interval list, exactly the candidate samples whose times lie
      within the grid's span are selected, each once and in ascending order. */
  lemma DefaultSelection(ts: seq<real>, refTs: seq<real>)
    requires |refTs| > 0
    ensures var sel := Selection(ts, EffectiveIntervals(refTs, None));
            && (forall k, l :: 0 <= k < l < |sel| ==> sel[k] < sel[l])
            && (forall j :: 0 <= j < |ts| ==>
                  (j in sel <==> GridTime(GridStart(refTs)) <= ts[j] <= GridTime(GridEnd(refTs))))
  {
    var ivs := [DefaultInterval(refTs)];
    assert ivs[..0] == [];
    assert Selection(ts, ivs) == IndicesIn(ts, DefaultInterval(refTs));
    forall j | 0 <= j < |ts|
      ensures j in Selection(ts, ivs) <==> InInterval(ts[j], DefaultInterval(refTs))
    {
      IndicesInCount(ts, DefaultInterval(refTs), j);
    }
  }

  // ---------------------------------------------------------------------
  // Nearest grid point
  // ---------------------------------------------------------------------

  /** Distance in seconds from grid position i to time t. */
  function Dist(g0: int, i: int, t: real): (d: real)
  {
    Abs(GridTime(g0 + i) - t)
  }

  /** The first position among the first m grid points with the least
      distance to t (argmin keeps the earliest minimiser). */
  function NearestIn(g0: int, m: nat, t: real): (k: nat)
    requires m >= 1
    ensures k < m
    ensures forall j :: 0 <= j < m ==> Dist(g0, k, t) <= Dist(g0, j, t)
    ensures forall j :: 0 <= j < k ==> Dist(g0, k, t) < Dist(g0, j, t)
  {
    if m == 1 then 0
    else
      var k := NearestIn(g0, m - 1, t);
      if Dist(g0, m - 1, t) < Dist(g0, k, t) then m - 1 else k
  }

  /** Direct index arithmetic for the nearest grid point: round the time in
      milliseconds to the nearest position, halves going down, and clamp it
      to the grid. */
  function RoundedIndex(g0: int, n: nat, t: real): (k: int)
    requires n >= 1
  {
    Clamp(Ceil(t * StepsPerSecond - g0 as real - 0.5), 0, n - 1)
  }

  /** There is only one earliest minimiser. */
  lemma FirstMinimiserUnique(g0: int, n: nat, t: real, k1: nat, k2: nat)
    requires k1 < n && k2 < n
    requires forall j :: 0 <= j < n ==> Dist(g0, k1, t) <= Dist(g0, j, t)
    requires forall j :: 0 <= j < k1 ==> Dist(g0, k1, t) < Dist(g0, j, t)
    requires forall j :: 0 <= j < n ==> Dist(g0, k2, t) <= Dist(g0, j, t)
    requires forall j :: 0 <= j < k2 ==> Dist(g0, k2, t) < Dist(g0, j, t)
    ensures k1 == k2
  {
    assert k1 < k2 ==> Dist(g0, k2, t) < Dist(g0, k1, t) <= Dist(g0, k2, t);
    assert k2 < k1 ==> Dist(g0, k1, t) < Dist(g0, k2, t) <= Dist(g0, k1, t);
  }

  /** The grid point's distance, in milliseconds, is |i - u| where u is the
      time measured in grid steps from the grid start. */
  lemma DistInSteps(g0: int, i: int, t: real)
    ensures Dist(g0, i, t) * StepsPerSecond == Abs(i as real - (t * StepsPerSecond - g0 as real))
  {
  }

  /** The exhaustive argmin scan and the direct index arithmetic agree,
      including the tie-break towards the earlier grid point. */
  lemma NearestIsRounded(g0: int, n: nat, t: real)
    requires n >= 1
    ensures NearestIn(g0, n, t) == RoundedIndex(g0, n, t)
  {
    var r := RoundedIndex(g0, n, t);
    forall j | 0 <= j < n
      ensures Dist(g0, r, t) <= Dist(g0, j, t)
      ensures j < r ==> Dist(g0, r, t) < Dist(g0, j, t)
    {
      RoundedBeats(g0, n, t, j);
    }
    FirstMinimiserUnique(g0, n, t, NearestIn(g0, n, t), r);
  }

  /** The rounded index is no farther from t than grid position j, and
      strictly closer when j comes before it. */
  lemma RoundedBeats(g0: int, n: nat, t: real, j: int)
    requires n >= 1 && 0 <= j < n
    ensures 0 <= RoundedIndex(g0, n, t) < n
    ensures Dist(g0, RoundedIndex(g0, n, t), t) <= Dist(g0, j, t)
    ensures j < RoundedIndex(g0, n, t) ==> Dist(g0, RoundedIndex(g0, n, t), t) < Dist(g0, j, t)
  {
    var r := RoundedIndex(g0, n, t);
    DistInSteps(g0, r, t);
    DistInSteps(g0, j, t);
  }

  // ---------------------------------------------------------------------
  // Differences and their mean square
  // ---------------------------------------------------------------------

  function SumSquares(d: seq<real>): (s: real)
    ensures s >= 0.0
  {
    if d == [] then 0.0 else SumSquares(d[..|d| - 1]) + d[|d| - 1] * d[|d| - 1]
  }

  function MeanSquare(d: seq<real>): (m: real)
    requires |d| > 0
  {
    SumSquares(d) / |d| as real
  }

  /** r is the root mean square of d: non-negative, and its square is the
      mean of the squared entries. */
  ghost predicate IsRootMeanSquare(r: real, d: seq<real>)
    requires |d| > 0
  {
    r >= 0.0 && r * r == MeanSquare(d)
  }

  lemma {:induction false} SumSquaresZero(d: seq<real>)
    ensures SumSquares(d) == 0.0 <==> forall k :: 0 <= k < |d| ==> d[k] == 0.0
  {
    if d != [] {
      var init := d[..|d| - 1];
      SumSquaresZero(init);
      var x := d[|d| - 1];
      assert SumSquares(d) == SumSquares(init) + x * x;
      SquareMonotone(0.0, Abs(x));
      assert x * x == Abs(x) * Abs(x);
      if SumSquares(d) == 0.0 {
        assert SumSquares(init) >= 0.0;
        assert x * x == 0.0;
        assert x == 0.0;
        forall k | 0 <= k < |d|
          ensures d[k] == 0.0
        {
          if k < |init| {
            assert d[k] == init[k];
          }
        }
      } else if SumSquares(init) != 0.0 {
        var k :| 0 <= k < |init| && init[k] != 0.0;
        assert d[k] == init[k];
      }
    }
  }

  /** The mean square is non-negative, and zero exactly when every
      difference is zero. */
  lemma MeanSquareZero(d: seq<real>)
    requires |d| > 0
    ensures MeanSquare(d) >= 0.0
    ensures MeanSquare(d) == 0.0 <==> forall k :: 0 <= k < |d| ==> d[k] == 0.0
  {
    SumSquaresZero(d);
  }

  lemma SquareMonotone(a: real, b: real)
    requires 0.0 <= a && 0.0 <= b
    ensures a < b ==> a * a < b * b
  {
    if a < b {
      PositiveProduct(b - a, b + a);
      assert b * b - a * a == (b - a) * (b + a);
    }
  }

  lemma PositiveProduct(p: real, q: real)
    requires p > 0.0 && q > 0.0
    ensures p * q > 0.0
  {
  }

  /** The root mean square is determined by the differences, and it is zero
      exactly when every difference is zero. */
  lemma RootMeanSquare(r1: real, r2: real, d: seq<real>)
    requires |d| > 0
    requires IsRootMeanSquare(r1, d) && IsRootMeanSquare(r2, d)
    ensures r1 == r2
    ensures r1 == 0.0 <==> forall k :: 0 <= k < |d| ==> d[k] == 0.0
  {
    MeanSquareZero(d);
    SquareMonotone(r1, r2);
    SquareMonotone(r2, r1);
    SquareMonotone(0.0, r1);
  }

  /** The signed differences: for each selected sample, its value minus the
      grid value at its nearest grid point. */
  function RmseDiffs(ct: seq<real>, cv: seq<real>, ts: seq<real>, vs: seq<real>,
                     intervals: Option<seq<Interval>>): (d: seq<real>)
    requires |ct| == |cv|
    requires ValidReference(ts, vs)
    ensures |d| == |Selection(ct, EffectiveIntervals(ts, intervals))|
  {
    var grid := ReferenceGrid(ts, vs);
    var g0 := GridStart(ts);
    var sel := Selection(ct, EffectiveIntervals(ts, intervals));
    seq(|sel|, k requires 0 <= k < |sel| => cv[sel[k]] - grid[NearestIn(g0, |grid|, ct[sel[k]])])
  }

  /** The metric: signed differences between the selected candidate samples
      and the resampled reference, and their mean square. The selection must
      be non-empty (otherwise the mean is undefined). */
  method Rmse(ct: seq<real>, cv: seq<real>, ts: seq<real>, vs: seq<real>,
              intervals: Option<seq<Interval>>)
    returns (meanSquare: real, diffs: seq<real>)
    requires |ct| == |cv|
    requires ValidReference(ts, vs)
    requires Selection(ct, EffectiveIntervals(ts, intervals)) != []
    ensures diffs == RmseDiffs(ct, cv, ts, vs, intervals)
    ensures meanSquare == MeanSquare(diffs)
    ensures meanSquare >= 0.0
    ensures meanSquare == 0.0 <==> forall k :: 0 <= k < |diffs| ==> diffs[k] == 0.0
  {
    var grid := ResampleOntoGrid(ts, vs);
    var g0 := GridStart(ts);
    var ivs := EffectiveIntervals(ts, intervals);
    var sel := SelectIndices(ct, ivs);
    var n := grid.Length;
    var reference := grid[..];
    diffs := seq(|sel|, k requires 0 <= k < |sel| =>
      cv[sel[k]] - reference[NearestIn(g0, n, ct[sel[k]])]);
    meanSquare := SumSquares(diffs) / |diffs| as real;
    MeanSquareZero(diffs);
  }

  /** Each difference is the selected sample's value minus the reference at
      the grid point nearest to it, found by direct index arithmetic. */
  lemma RmseDiffsAt(ct: seq<real>, cv: seq<real>, ts: seq<real>, vs: seq<real>,
                    intervals: Option<seq<Interval>>, k: nat)
    requires |ct| == |cv|
    requires ValidReference(ts, vs)
    requires k < |RmseDiffs(ct, cv, ts, vs, intervals)|
    ensures var sel := Selection(ct, EffectiveIntervals(ts, intervals));
            var j := RoundedIndex(GridStart(ts), GridLength(ts), ct[sel[k]]);
            && 0 <= j < GridLength(ts)
            && RmseDiffs(ct, cv, ts, vs, intervals)[k] == cv[sel[k]] - ReferenceGrid(ts, vs)[j]
  {
    var sel := Selection(ct, EffectiveIntervals(ts, intervals));
    NearestIsRounded(GridStart(ts), GridLength(ts), ct[sel[k]]);
  }

  /** Against a constant reference every difference is the selected sample's
      value minus that constant. */
  lemma RmseDiffsOfConstant(ct: seq<real>, cv: seq<real>, ts: seq<real>, vs: seq<real>,
                            intervals: Option<seq<Interval>>, c: real)
    requires |ct| == |cv|
    requires ValidReference(ts, vs)
    requires forall j :: 0 <= j < |vs| ==> vs[j] == c
    ensures var sel := Selection(ct, EffectiveIntervals(ts, intervals));
            forall k :: 0 <= k < |sel| ==> RmseDiffs(ct, cv, ts, vs, intervals)[k] == cv[sel[k]] - c
  {
    ReferenceGridOfConstant(ts, vs, c);
  }

  /** A reference of constant value 1.0 from 0 s to 10 s, one candidate
      sample (5 s, 1.0) and the interval [0, 10]: one difference, 0.0, and
      mean square 0.0. */
  lemma ExampleConstantReference(ct: seq<real>, cv: seq<real>, ts: seq<real>, vs: seq<real>,
                                  ivs: seq<Interval>)
    requires ct == [5.0] && cv == [1.0]
    requires ts == [0.0, 10.0] && vs == [1.0, 1.0]
    requires ivs == [Interval(0.0, 10.0)]
    ensures RmseDiffs(ct, cv, ts, vs, Some(ivs)) == [0.0]
    ensures MeanSquare(RmseDiffs(ct, cv, ts, vs, Some(ivs))) == 0.0
  {
    assert ivs[..0] == [];
    assert IndicesFrom(ct, ivs[0], 1) == [];
    assert IndicesIn(ct, ivs[0]) == [0];
    assert Selection(ct, ivs) == [0];
    RmseDiffsOfConstant(ct, cv, ts, vs, Some(ivs), 1.0);
    var d := RmseDiffs(ct, cv, ts, vs, Some(ivs));
    assert d == [0.0];
    MeanSquareZero(d);
  }
}

=== FILE: calc_tcr.dfy ===
/** Time coverage rate of a candidate inter-beat-interval series against a
    reference series.

    The reference span is cut into K = floor(span / dt) bins of width dt
    starting at the first reference time; the remainder at the end is not
    evaluated. Bin k is covered when some candidate sample in its
    half-open window is strictly closer than the tolerance to the bin's
    reference value. The result is the covered share of the K bins, in
    percent (unrounded). */
module CalcTcr {
  import opened Interpolation

  /** The number of bins: the reference span divided by the bin width,
      rounded down. */
  function BinCount(ts: seq<real>, dt: real): (K: int)
    requires |ts| > 0 && dt > 0.0
  {
    ((Last(ts) - ts[0]) / dt).Floor
  }

  function BinCentre(t0: real, dt: real, k: int): (c: real)
  {
    t0 + dt / 2.0 + k as real * dt
  }

  /** Bin k's window is [centre - dt/2, centre + dt/2). */
  predicate InWindow(t0: real, dt: real, k: int, t: real)
  {
    BinCentre(t0, dt, k) - dt / 2.0 <= t < BinCentre(t0, dt, k) + dt / 2.0
  }

  /** Bin k's reference value: the reference interpolated at the bin centre,
      except that bin 0 takes the first reference value and bin K-1 the
      last one (written second, so a single bin takes the last value). */
  function BinReference(ts: seq<real>, vs: seq<real>, dt: real, k: int): (v: real)
    requires ValidReference(ts, vs) && dt > 0.0
  {
    if k == BinCount(ts, dt) - 1 then Last(vs)
    else if k == 0 then First(vs)
    else Interp(ts, vs, BinCentre(ts[0], dt, k))
  }

  /** The values of the candidate samples from index `from` on whose times
      lie in [lo, hi), in series order. */
  function ValuesInRange(ct: seq<real>, cv: seq<real>, lo: real, hi: real, from: nat): (r: seq<real>)
    requires |ct| == |cv| && from <= |ct|
    ensures |r| <= |ct| - from
    decreases |ct| - from
  {
    if from == |ct| then []
    else if lo <= ct[from] < hi then [cv[from]] + ValuesInRange(ct, cv, lo, hi, from + 1)
    else ValuesInRange(ct, cv, lo, hi, from + 1)
  }

  /** Whether some value lies strictly within `err` of `ref`. */
  predicate AnyWithin(vals: seq<real>, ref: real, err: real)
  {
    vals != [] && (Abs(vals[0] - ref) < err || AnyWithin(vals[1..], ref, err))
  }

  /** Bin k is covered when its window holds at least one candidate sample
      and one of those samples is within tolerance of its reference value. */
  predicate BinCovered(ct: seq<real>, cv: seq<real>, ts: seq<real>, vs: seq<real>,
                       dt: real, err: real, k: int)
    requires |ct| == |cv| && ValidReference(ts, vs) && dt > 0.0
  {
    var centre := BinCentre(ts[0], dt, k);
    var inRange := ValuesInRange(ct, cv, centre - dt / 2.0, centre + dt / 2.0, 0);
    |inRange| > 0 && AnyWithin(inRange, BinReference(ts, vs, dt, k), err)
  }

  function CoverageFlags(ct: seq<real>, cv: seq<real>, ts: seq<real>, vs: seq<real>,
                         dt: real, err: real): (flags: seq<bool>)
    requires |ct| == |cv| && ValidReference(ts, vs) && dt > 0.0
    requires BinCount(ts, dt) >= 0
    ensures |flags| == BinCount(ts, dt)
  {
    seq(BinCount(ts, dt), k => BinCovered(ct, cv, ts, vs, dt, err, k))
  }

  /** The number of covered bins. */
  function CountCovered(flags: seq<bool>): (c: nat)
    ensures c <= |flags|
  {
    if flags == [] then 0
    else CountCovered(flags[..|flags| - 1]) + (if flags[|flags| - 1] then 1 else 0)
  }

  /** The bin reference values: interpolate at every bin centre, then force
      the first and last entries to the reference end values in place. */
  method BinReferenceValues(ts: seq<real>, vs: seq<real>, dt: real) returns (vq: array<real>)
    requires ValidReference(ts, vs) && dt > 0.0
    requires BinCount(ts, dt) >= 1
    ensures fresh(vq) && vq.Length == BinCount(ts, dt)
    ensures forall k :: 0 <= k < vq.Length ==> vq[k] == BinReference(ts, vs, dt, k)
  {
    var K := BinCount(ts, dt);
    var t0 := ts[0];
    vq := new real[K](k => Interp(ts, vs, BinCentre(t0, dt, k)));
    vq[0] := First(vs);
    vq[K - 1] := Last(vs);
  }

  /** The metric: the percentage of bins that are covered. There must be at
      least one bin (otherwise the first bin cannot be written and the ratio
      divides by zero). */
  method Tcr(ct: seq<real>, cv: seq<real>, ts: seq<real>, vs: seq<real>, dt: real, err: real)
    returns (tcr: real)
    requires |ct| == |cv|
    requires ValidReference(ts, vs) && dt > 0.0
    requires BinCount(ts, dt) >= 1
    ensures tcr == CountCovered(CoverageFlags(ct, cv, ts, vs, dt, err)) as real * 100.0
                   / BinCount(ts, dt) as real
    ensures 0.0 <= tcr <= 100.0
    ensures tcr == 100.0 <==> forall k :: 0 <= k < BinCount(ts, dt) ==> BinCovered(ct, cv, ts, vs, dt, err, k)
    ensures tcr == 0.0 <==> forall k :: 0 <= k < BinCount(ts, dt) ==> !BinCovered(ct, cv, ts, vs, dt, err, k)
  {
    var K := BinCount(ts, dt);
    var vq := BinReferenceValues(ts, vs, dt);
    var cover := new bool[K](_ => false);
    for i := 0 to K
      modifies cover
      invariant forall k :: 0 <= k < i ==> cover[k] == BinCovered(ct, cv, ts, vs, dt, err, k)
      invariant forall k :: i <= k < K ==> !cover[k]
    {
      var lo := BinCentre(ts[0], dt, i) - dt / 2.0;
      var hi := BinCentre(ts[0], dt, i) + dt / 2.0;
      var inRange := ValuesInRange(ct, cv, lo, hi, 0);
      assert vq[i] == BinReference(ts, vs, dt, i);
      if |inRange| > 0 {
        cover[i] := AnyWithin(inRange, vq[i], err);
      }
      assert cover[i] == BinCovered(ct, cv, ts, vs, dt, err, i);
    }
    assert cover[..] == CoverageFlags(ct, cv, ts, vs, dt, err);
    var covered := CountCovered(cover[..]);
    tcr := covered as real * 100.0 / K as real;
    CountCoveredExtremes(cover[..]);
    PercentageBounds(covered, K);
  }

  // ---------------------------------------------------------------------
  // Properties
  // ---------------------------------------------------------------------

  lemma {:induction false} CountCoveredExtremes(flags: seq<bool>)
    ensures CountCovered(flags) == |flags| <==> forall k :: 0 <= k < |flags| ==> flags[k]
    ensures CountCovered(flags) == 0 <==> forall k :: 0 <= k < |flags| ==> !flags[k]
  {
    if flags != [] {
      var init := flags[..|flags| - 1];
      CountCoveredExtremes(init);
      assert forall k :: 0 <= k < |init| ==> flags[k] == init[k];
    }
  }

  lemma PercentageBounds(covered: nat, K: nat)
    requires 1 <= K && covered <= K
    ensures 0.0 <= covered as real * 100.0 / K as real <= 100.0
    ensures covered as real * 100.0 / K as real == 100.0 <==> covered == K
    ensures covered as real * 100.0 / K as real == 0.0 <==> covered == 0
  {
    var p, kr := covered as real * 100.0 / K as real, K as real;
    assert p * kr == covered as real * 100.0;
    MulLessEq(covered as real, kr, 100.0);
    MulLessEq(p, 100.0, kr);
    MulLessEq(0.0, p, kr);
    MulLessEq(p, 0.0, kr);
    if covered == K {
      assert covered as real == kr;
      assert p * kr == 100.0 * kr;
      CancelFactor(p, 100.0, kr);
    }
  }

  lemma MulLessEq(a: real, b: real, d: real)
    requires d > 0.0
    ensures a * d <= b * d <==> a <= b
    ensures a * d < b * d <==> a < b
  {
    if a <= b {
      assert (b - a) * d >= 0.0;
    } else {
      assert (a - b) * d > 0.0;
    }
  }

  /** m dt fits in x exactly when m is at most floor(x / dt). */
  lemma FloorQuotient(x: real, dt: real, m: int)
    requires dt > 0.0
    ensures m as real * dt <= x <==> m <= (x / dt).Floor
  {
    var u := x / dt;
    assert u * dt == x;
    MulLessEq(m as real, u, dt);
    assert m as real * dt <= x <==> m as real <= u;
    assert m as real <= u <==> m <= u.Floor;
  }

  /** Bin k's window is [t0 + k dt, t0 + (k + 1) dt). */
  lemma WindowSpan(t0: real, dt: real, k: int, t: real)
    ensures InWindow(t0, dt, k, t) <==> k as real * dt <= t - t0 < (k + 1) as real * dt
  {
    StepMul(k, dt);
  }

  lemma StepMul(k: int, dt: real)
    ensures (k + 1) as real * dt == k as real * dt + dt
  {
  }

  /** A time lies in bin k's window exactly when k is floor((t - t0) / dt). */
  lemma WindowIndex(t0: real, dt: real, t: real, k: int)
    requires dt > 0.0
    ensures InWindow(t0, dt, k, t) <==> k == ((t - t0) / dt).Floor
  {
    WindowSpan(t0, dt, k, t);
    FloorQuotient(t - t0, dt, k);
    FloorQuotient(t - t0, dt, k + 1);
  }

  /** The windows tile [t0, t0 + K dt): a time in that range lies in the
      window of bin floor((t - t0) / dt) and in no other, and a time outside
      it (before the first reference time, or in the truncated remainder)
      lies in no bin's window. */
  lemma WindowOf(ts: seq<real>, dt: real, t: real)
    requires |ts| > 0 && dt > 0.0
    ensures var t0, K := ts[0], BinCount(ts, dt);
            var k := ((t - t0) / dt).Floor;
            && (t0 <= t < t0 + K as real * dt ==>
                  0 <= k < K && InWindow(t0, dt, k, t)
                  && forall k' :: 0 <= k' < K && k' != k ==> !InWindow(t0, dt, k', t))
            && (t < t0 || t0 + K as real * dt <= t ==>
                  forall k' :: 0 <= k' < K ==> !InWindow(t0, dt, k', t))
  {
    var t0, K := ts[0], BinCount(ts, dt);
    var k := ((t - t0) / dt).Floor;
    forall k': int
      ensures InWindow(t0, dt, k', t) <==> k' == k
    {
      WindowIndex(t0, dt, t, k');
    }
    FloorQuotient(t - t0, dt, 0);
    FloorQuotient(t - t0, dt, K);
  }

  /** Every bin centre lies strictly inside the reference span, so the
      truncated remainder is the only part of the span left out. */
  lemma BinCentresInSpan(ts: seq<real>, dt: real, k: int)
    requires |ts| >= 2 && StrictlyIncreasing(ts) && dt > 0.0
    requires 0 <= k < BinCount(ts, dt)
    ensures ts[0] < BinCentre(ts[0], dt, k) < Last(ts)
    ensures BinCount(ts, dt) as real * dt <= Last(ts) - ts[0] < (BinCount(ts, dt) + 1) as real * dt
  {
    var K := BinCount(ts, dt);
    var span := Last(ts) - ts[0];
    FloorQuotient(span, dt, K);
    FloorQuotient(span, dt, K + 1);
    CentreOffset(k, K, dt, span);
  }

  /** The arithmetic behind BinCentresInSpan: when K whole steps fit in the
      span, the centre offset of any bin k < K lies strictly inside it. */
  lemma CentreOffset(k: int, K: int, dt: real, span: real)
    requires dt > 0.0 && 0 <= k < K && K as real * dt <= span
    ensures 0.0 < dt / 2.0 + k as real * dt < span
  {
    MulLessEq((k + 1) as real, K as real, dt);
    MulLessEq(0.0, k as real, dt);
    StepMul(k, dt);
  }

  /** Every bin reference value lies within the range of the reference
      values: the two forced bins take end values, and every other bin
      centre lies inside the span. */
  lemma BinReferenceWithinRange(ts: seq<real>, vs: seq<real>, dt: real, lo: real, hi: real, k: int)
    requires ValidReference(ts, vs) && dt > 0.0
    requires 0 <= k < BinCount(ts, dt)
    requires forall j :: 0 <= j < |vs| ==> lo <= vs[j] <= hi
    ensures lo <= BinReference(ts, vs, dt, k) <= hi
  {
    assert lo <= First(vs) <= hi && lo <= Last(vs) <= hi;
    BinCentresInSpan(ts, dt, k);
    InterpWithinRange(ts, vs, BinCentre(ts[0], dt, k), lo, hi);
  }

  /** Every value selected for [lo, hi) is the value of some candidate
      sample, from index `from` on, whose time lies in [lo, hi). */
  lemma {:induction false} ValuesInRangeSound(ct: seq<real>, cv: seq<real>, lo: real, hi: real,
                                             from: nat, k: nat)
    requires |ct| == |cv| && from <= |ct|
    requires k < |ValuesInRange(ct, cv, lo, hi, from)|
    ensures exists j :: from <= j < |ct| && lo <= ct[j] < hi
                        && ValuesInRange(ct, cv, lo, hi, from)[k] == cv[j]
    decreases |ct| - from
  {
    var rest := ValuesInRange(ct, cv, lo, hi, from + 1);
    if lo <= ct[from] < hi {
      if k == 0 {
        assert ValuesInRange(ct, cv, lo, hi, from)[0] == cv[from];
      } else {
        ValuesInRangeSound(ct, cv, lo, hi, from + 1, k - 1);
        assert ValuesInRange(ct, cv, lo, hi, from)[k] == rest[k - 1];
      }
    } else {
      ValuesInRangeSound(ct, cv, lo, hi, from + 1, k);
    }
  }

  lemma {:induction false} ValuesInRangeAny(ct: seq<real>, cv: seq<real>, lo: real, hi: real,
                                           from: nat, ref: real, err: real)
    requires |ct| == |cv| && from <= |ct|
    ensures |ValuesInRange(ct, cv, lo, hi, from)| > 0 <==>
              exists j :: from <= j < |ct| && lo <= ct[j] < hi
    ensures AnyWithin(ValuesInRange(ct, cv, lo, hi, from), ref, err) <==>
              exists j :: from <= j < |ct| && lo <= ct[j] < hi && Abs(cv[j] - ref) < err
    decreases |ct| - from
  {
    if from < |ct| {
      ValuesInRangeAny(ct, cv, lo, hi, from + 1, ref, err);
      var rest := ValuesInRange(ct, cv, lo, hi, from + 1);
      if lo <= ct[from] < hi {
        assert ([cv[from]] + rest)[1..] == rest;
      }
    }
  }

  /** Bin k is covered exactly when some candidate sample lies in its window
      and is strictly closer than `err` to the bin's reference value; a
      sample exactly `err` away does not count, and a bin with no sample in
      its window is not covered. */
  lemma BinCoveredIff(ct: seq<real>, cv: seq<real>, ts: seq<real>, vs: seq<real>,
                      dt: real, err: real, k: int)
    requires |ct| == |cv| && ValidReference(ts, vs) && dt > 0.0
    ensures BinCovered(ct, cv, ts, vs, dt, err, k) <==>
              exists j :: 0 <= j < |ct| && InWindow(ts[0], dt, k, ct[j])
                          && Abs(cv[j] - BinReference(ts, vs, dt, k)) < err
  {
    var centre := BinCentre(ts[0], dt, k);
    ValuesInRangeAny(ct, cv, centre - dt / 2.0, centre + dt / 2.0, 0, BinReference(ts, vs, dt, k), err);
  }

  /** Adding candidate samples never uncovers a bin, and samples outside a
      bin's window do not change whether that bin is covered. */
  lemma BinCoveredLocal(ct: seq<real>, cv: seq<real>, ct2: seq<real>, cv2: seq<real>,
                        ts: seq<real>, vs: seq<real>, dt: real, err: real, k: int)
    requires |ct| == |cv| && |ct2| == |cv2| && ValidReference(ts, vs) && dt > 0.0
    ensures BinCovered(ct, cv, ts, vs, dt, err, k) ==> BinCovered(ct + ct2, cv + cv2, ts, vs, dt, err, k)
    ensures (forall j :: 0 <= j < |ct2| ==> !InWindow(ts[0], dt, k, ct2[j])) ==>
              BinCovered(ct + ct2, cv + cv2, ts, vs, dt, err, k) == BinCovered(ct, cv, ts, vs, dt, err, k)
  {
    BinCoveredIff(ct, cv, ts, vs, dt, err, k);
    BinCoveredIff(ct + ct2, cv + cv2, ts, vs, dt, err, k);
    var ref := BinReference(ts, vs, dt, k);
    if BinCovered(ct, cv, ts, vs, dt, err, k) {
      var j :| 0 <= j < |ct| && InWindow(ts[0], dt, k, ct[j]) && Abs(cv[j] - ref) < err;
      assert (ct + ct2)[j] == ct[j] && (cv + cv2)[j] == cv[j];
    }
    if BinCovered(ct + ct2, cv + cv2, ts, vs, dt, err, k)
       && forall j :: 0 <= j < |ct2| ==> !InWindow(ts[0], dt, k, ct2[j]) {
      assert forall j :: |ct| <= j < |ct + ct2| ==> (ct + ct2)[j] == ct2[j - |ct|];
      var j :| 0 <= j < |ct + ct2| && InWindow(ts[0], dt, k, (ct + ct2)[j])
               && Abs((cv + cv2)[j] - ref) < err;
      assert j < |ct| && (ct + ct2)[j] == ct[j] && (cv + cv2)[j] == cv[j];
    }
  }

  /** A reference of constant value 1.0 from 0 s to 10 s, one candidate
      sample (5 s, 1.0), bin width 5 s and tolerance 0.5: two bins, [0, 5)
      with no sample and [5, 10) holding the sample with a matching value,
      so the rate is 50 %. */
  lemma ExampleTwoBins(ct: seq<real>, cv: seq<real>, ts: seq<real>, vs: seq<real>,
                       dt: real, err: real)
    requires ct == [5.0] && cv == [1.0]
    requires ts == [0.0, 10.0] && vs == [1.0, 1.0]
    requires dt == 5.0 && err == 0.5
    ensures BinCount(ts, dt) == 2
    ensures CoverageFlags(ct, cv, ts, vs, dt, err) == [false, true]
    ensures CountCovered(CoverageFlags(ct, cv, ts, vs, dt, err)) as real * 100.0
              / BinCount(ts, dt) as real == 50.0
  {
    assert BinCount(ts, dt) == 2;
    BinCoveredIff(ct, cv, ts, vs, dt, err, 0);
    BinCoveredIff(ct, cv, ts, vs, dt, err, 1);
    assert !InWindow(ts[0], dt, 0, ct[0]);
    assert InWindow(ts[0], dt, 1, ct[0]);
    assert BinReference(ts, vs, dt, 1) == 1.0;
    var flags := CoverageFlags(ct, cv, ts, vs, dt, err);
    assert flags == [false, true];
    assert flags[..1] == [false];
    assert CountCovered(flags) == 1;
  }

  /** A 10 s span with 3 s bins gives three bins; a sample in the last
      second, the truncated remainder, lies in none of them. */
  lemma ExampleTruncation(ts: seq<real>, dt: real)
    requires ts == [0.0, 10.0] && dt == 3.0
    ensures BinCount(ts, dt) == 3
    ensures forall k :: 0 <= k < BinCount(ts, dt) ==> !InWindow(ts[0], dt, k, 9.5)
  {
    assert BinCount(ts, dt) == 3;
    WindowOf(ts, dt, 9.5);
  }
}

=== FILE: interpolation.dfy ===
/** Linear interpolation of a reference series with linear extrapolation
    beyond its ends: the behaviour both metrics obtain from
    `interp1d(t, v, kind='linear', bounds_error=False, fill_value="extrapolate")`.

    For a query time q the segment is chosen as the interpolation routine
    does: `hi` is the number of sample times strictly below q, clipped to
    [1, n-1], and `lo` is `hi - 1`. The value is the straight line through
    the two samples of that segment, evaluated at q. */
module Interpolation {

  function Abs(x: real): (r: real)
    ensures r >= 0.0
    ensures r == x || r == -x
  {
    if x < 0.0 then -x else x
  }

  predicate StrictlyIncreasing(ts: seq<real>)
  {
    forall i, j :: 0 <= i < j < |ts| ==> ts[i] < ts[j]
  }

  /** A reference series: parallel times and values, at least two samples,
      times strictly increasing. */
  predicate ValidReference(ts: seq<real>, vs: seq<real>)
  {
    |ts| == |vs| && |ts| >= 2 && StrictlyIncreasing(ts)
  }

  function First(vs: seq<real>): (v: real)
    requires |vs| > 0
  {
    vs[0]
  }

  function Last(vs: seq<real>): (v: real)
    requires |vs| > 0
  {
    vs[|vs| - 1]
  }

  /** The first index at or after `i` whose time is not below q, or the last
      index when there is none. */
  function UpperFrom(ts: seq<real>, q: real, i: nat): (hi: nat)
    requires 1 <= i < |ts|
    ensures i <= hi < |ts|
    ensures q <= ts[hi] || hi == |ts| - 1
    ensures forall j :: i <= j < hi ==> ts[j] < q
    decreases |ts| - i
  {
    if i == |ts| - 1 || q <= ts[i] then i else UpperFrom(ts, q, i + 1)
  }

  /** The upper end of the segment used for query time q: the count of
      sample times below q, clipped to [1, |ts| - 1]. */
  function Segment(ts: seq<real>, q: real): (hi: nat)
    requires |ts| >= 2
    ensures 1 <= hi < |ts|
    ensures q <= ts[hi] || hi == |ts| - 1
    ensures forall j :: 1 <= j < hi ==> ts[j] < q
  {
    UpperFrom(ts, q, 1)
  }

  /** The straight line through (t0, v0) and (t1, v1), evaluated at q. */
  function Line(t0: real, v0: real, t1: real, v1: real, q: real): (v: real)
    requires t0 < t1
  {
    (v1 - v0) / (t1 - t0) * (q - t0) + v0
  }

  function Interp(ts: seq<real>, vs: seq<real>, q: real): (v: real)
    requires ValidReference(ts, vs)
  {
    var hi := Segment(ts, q);
    Line(ts[hi - 1], vs[hi - 1], ts[hi], vs[hi], q)
  }

  lemma LineAtEnds(t0: real, v0: real, t1: real, v1: real)
    requires t0 < t1
    ensures Line(t0, v0, t1, v1, t0) == v0
    ensures Line(t0, v0, t1, v1, t1) == v1
  {
    var s := (v1 - v0) / (t1 - t0);
    assert s * (t1 - t0) == v1 - v0;
  }

  /** At a sample time the interpolant returns that sample's value. */
  lemma InterpAtSample(ts: seq<real>, vs: seq<real>, k: nat)
    requires ValidReference(ts, vs)
    requires k < |ts|
    ensures Interp(ts, vs, ts[k]) == vs[k]
  {
    var hi := Segment(ts, ts[k]);
    LineAtEnds(ts[hi - 1], vs[hi - 1], ts[hi], vs[hi]);
    if k == 0 {
      assert hi == 1;
    } else {
      assert hi == k;
    }
  }

  /** Between two consecutive samples the interpolant is the straight line
      through them, whichever of the two adjacent segments the search picks
      at a shared end point. */
  lemma InterpBetweenSamples(ts: seq<real>, vs: seq<real>, k: nat, q: real)
    requires ValidReference(ts, vs)
    requires k + 1 < |ts|
    requires ts[k] <= q <= ts[k + 1]
    ensures Interp(ts, vs, q) == Line(ts[k], vs[k], ts[k + 1], vs[k + 1], q)
  {
    var hi := Segment(ts, q);
    if hi != k + 1 {
      assert q == ts[k] && hi == k;
      InterpAtSample(ts, vs, k);
      LineAtEnds(ts[k], vs[k], ts[k + 1], vs[k + 1]);
    }
  }

  /** Between two consecutive samples the interpolant lies between their
      values. */
  lemma InterpBounded(ts: seq<real>, vs: seq<real>, k: nat, q: real)
    requires ValidReference(ts, vs)
    requires k + 1 < |ts|
    requires ts[k] <= q <= ts[k + 1]
    ensures vs[k] <= vs[k + 1] ==> vs[k] <= Interp(ts, vs, q) <= vs[k + 1]
    ensures vs[k + 1] <= vs[k] ==> vs[k + 1] <= Interp(ts, vs, q) <= vs[k]
  {
    InterpBetweenSamples(ts, vs, k, q);
    var d, e := ts[k + 1] - ts[k], q - ts[k];
    var s := (vs[k + 1] - vs[k]) / d;
    assert s * d == vs[k + 1] - vs[k];
    assert 0.0 <= e <= d;
    assert Line(ts[k], vs[k], ts[k + 1], vs[k + 1], q) == s * e + vs[k];
    if vs[k] <= vs[k + 1] {
      assert 0.0 <= s;
      assert 0.0 <= s * (d - e) && 0.0 <= s * e;
    } else {
      assert s <= 0.0;
      assert s * (d - e) <= 0.0 && s * e <= 0.0;
    }
  }

  /** Inside the reference span the interpolant never leaves the range of
      the reference values. */
  lemma InterpWithinRange(ts: seq<real>, vs: seq<real>, q: real, lo: real, hi: real)
    requires ValidReference(ts, vs)
    requires ts[0] <= q <= Last(ts)
    requires forall j :: 0 <= j < |vs| ==> lo <= vs[j] <= hi
    ensures lo <= Interp(ts, vs, q) <= hi
  {
    var h := Segment(ts, q);
    assert ts[h - 1] <= q <= ts[h];
    InterpBounded(ts, vs, h - 1, q);
    assert lo <= vs[h - 1] <= hi && lo <= vs[h] <= hi;
  }

  /** Before the first sample the interpolant extends the first segment's
      line; it is not held at the first value. */
  lemma InterpBeforeFirst(ts: seq<real>, vs: seq<real>, q: real)
    requires ValidReference(ts, vs)
    requires q <= ts[0]
    ensures Interp(ts, vs, q) == Line(ts[0], vs[0], ts[1], vs[1], q)
  {
    assert Segment(ts, q) == 1;
  }

  /** After the last sample the interpolant extends the last segment's line. */
  lemma InterpAfterLast(ts: seq<real>, vs: seq<real>, q: real)
    requires ValidReference(ts, vs)
    requires ts[|ts| - 1] <= q
    ensures Interp(ts, vs, q) == Line(ts[|ts| - 2], vs[|ts| - 2], ts[|ts| - 1], vs[|ts| - 1], q)
  {
    var n := |ts|;
    var hi := Segment(ts, q);
    assert forall j :: 0 <= j < n - 1 ==> ts[j] < ts[n - 1];
  }

  /** A reference series whose samples lie on one straight line is
      reproduced exactly, inside and outside its span. */
  lemma InterpOfLine(ts: seq<real>, vs: seq<real>, a: real, b: real, q: real)
    requires ValidReference(ts, vs)
    requires forall j :: 0 <= j < |ts| ==> vs[j] == a * ts[j] + b
    ensures Interp(ts, vs, q) == a * q + b
  {
    var hi := Segment(ts, q);
    assert ts[hi - 1] < ts[hi];
    assert vs[hi - 1] == a * ts[hi - 1] + b && vs[hi] == a * ts[hi] + b;
    LineOfLine(ts[hi - 1], ts[hi], a, b, q);
  }

  /** The line through two points of q |-> a q + b is that same line. */
  lemma LineOfLine(t0: real, t1: real, a: real, b: real, q: real)
    requires t0 < t1
    ensures Line(t0, a * t0 + b, t1, a * t1 + b, q) == a * q + b
  {
    var d := t1 - t0;
    var s := ((a * t1 + b) - (a * t0 + b)) / d;
    assert s * d == (a * t1 + b) - (a * t0 + b);
    assert (a * t1 + b) - (a * t0 + b) == a * d;
    CancelFactor(s, a, d);
    assert s * (q - t0) + (a * t0 + b) == a * q + b;
  }

  lemma CancelFactor(x: real, y: real, d: real)
    requires d > 0.0 && x * d == y * d
    ensures x == y
  {
    assert (x - y) * d == x * d - y * d;
  }
}
